=== FILE: README.md ===
# SNTP client core, modelled in Dafny

This project models the byte-level and arithmetic core of the Android app's
SNTP client, `SNTPClient.kt`. That client asks a time server for the time
with one 48-byte UDP packet and corrects the answer for network delay.
The model covers these parts:

- the packet constants;
- the request header byte, which asks for client mode 3 and version 3;
- `read32`, which decodes an unsigned 32-bit big-endian number from a
  buffer of signed Kotlin bytes;
- `readTimeStamp` and `writeTimeStamp`, which convert between
  milliseconds since 1970 and the 64-bit NTP timestamp (32-bit seconds
  since 1900 plus a 32-bit binary fraction, section 3 of RFC 4330);
- the round-trip delay, clock offset and corrected time that
  `requestTime` computes after the exchange (section 5 of RFC 4330).

The model follows Kotlin's integer semantics explicitly. The definitions
are in `jvm_int.dfy`:

- a `ByteArray` holds signed bytes in [-128, 127];
- `toByte()` keeps the low eight bits;
- `shr` on a `Long` is a floor division by a power of two;
- `Long` division truncates toward zero;
- `Long` addition and subtraction wrap modulo 2^64;
- `and` and `or` act on the 32-bit two's-complement pattern of an `Int`.

The files are:

- `jvm_int.dfy`: the Kotlin integer semantics and the bit-mask lemmas;
- `big_endian.dfy`: the value of a big-endian byte string and the encoding
  that the right shifts produce;
- `ntp_packet.dfy`: the packet layout, the constants and the header byte;
- `timestamp.dfy`: `read32`, `readTimeStamp`, `writeTimeStamp` and their
  round trip;
- `sntp_client.dfy`: one transaction of `requestTime`, with the clocks, the
  random byte and the received datagram as inputs.

## Model

| member | source | states |
|---|---|---|
| NtpPacket.OffsetValue | app/src/main/java/com/scaredeer/intervalreload/SNTPClient.kt:42-44 | Seventy years of 365 days plus 17 leap days is 2208988800 seconds, and this fits the 32-bit seconds field. |
| NtpPacket.FieldsTilePacketTail | app/src/main/java/com/scaredeer/intervalreload/SNTPClient.kt:33-36 | The originate, receive and transmit fields at 24, 32 and 40 are 8 bytes each, do not overlap, and end exactly at byte 48. |
| NtpPacket.HeaderBits | app/src/main/java/com/scaredeer/intervalreload/SNTPClient.kt:122 | `mode or (version shl 3)` equals `mode + 8 * version` for a mode and version below 8, because the two occupy disjoint bits. |
| NtpPacket.Header | app/src/main/java/com/scaredeer/intervalreload/SNTPClient.kt:119-122 | The header byte has the given mode in bits 0-2, the given version in bits 3-5 and a zero leap indicator. |
| NtpPacket.RequestHeader | app/src/main/java/com/scaredeer/intervalreload/SNTPClient.kt:39-40 | The client's header byte, mode 3 and version 3, is 0x1B. |
| JvmInt.WrapLong | app/src/main/java/com/scaredeer/intervalreload/SNTPClient.kt:134-145 | A `Long` sum or difference is congruent to the exact one modulo 2^64 and equals it when it is in range. |
| JvmInt.WrapLongDifference | app/src/main/java/com/scaredeer/intervalreload/SNTPClient.kt:140 | Subtracting two wrapped `Long` values and wrapping gives the wrapped exact difference. |
| JvmInt.Div | app/src/main/java/com/scaredeer/intervalreload/SNTPClient.kt:141 | `Long` division by a positive divisor truncates toward zero, so the remainder takes the sign of the dividend. |
| JvmInt.ToByte | app/src/main/java/com/scaredeer/intervalreload/SNTPClient.kt:189-200 | `toByte()` returns the signed byte congruent to its argument modulo 256. |
| JvmInt.ToByteUnique | app/src/main/java/com/scaredeer/intervalreload/SNTPClient.kt:189-192 | That byte is unique: any byte congruent to the argument modulo 256 is the one `toByte()` returns. |
| JvmInt.AndLowMask | app/src/main/java/com/scaredeer/intervalreload/SNTPClient.kt:161-164 | Masking with `2^k - 1`, as `and 0x7F` does, keeps the remainder modulo `2^k`. |
| JvmInt.AndSingleBit | app/src/main/java/com/scaredeer/intervalreload/SNTPClient.kt:161-164 | Masking with `2^k`, as `and 0x80` does, keeps bit `k` alone. |
| JvmInt.OrDisjoint | app/src/main/java/com/scaredeer/intervalreload/SNTPClient.kt:122 | `or` of a value below `2^k` with a multiple of `2^k` is their sum. |
| BigEndian.ValueOfEncode | app/src/main/java/com/scaredeer/intervalreload/SNTPClient.kt:188-198 | Writing a number big-endian into `n` bytes and reading it back unsigned gives the number modulo `256^n`. |
| BigEndian.EncodeOfValue | app/src/main/java/com/scaredeer/intervalreload/SNTPClient.kt:188-198 | Reading any byte string unsigned and writing the result back into as many bytes gives the same string. |
| BigEndian.EncodeFour | app/src/main/java/com/scaredeer/intervalreload/SNTPClient.kt:189-192 | The bytes `(x shr 24).toByte()` to `(x shr 0).toByte()` are the 4-byte big-endian encoding of `x`. |
| Timestamp.ToUnsigned | app/src/main/java/com/scaredeer/intervalreload/SNTPClient.kt:160-164 | The sign-bit test maps a signed byte to its unsigned value, the byte modulo 256, in [0, 255]. |
| Timestamp.SignBitOfByte | app/src/main/java/com/scaredeer/intervalreload/SNTPClient.kt:161-164 | `b and 0x80 == 0x80` holds exactly for the negative bytes, and `(b and 0x7F) + 0x80` is then `b + 256`. |
| Timestamp.Read32 | app/src/main/java/com/scaredeer/intervalreload/SNTPClient.kt:154-166 | `read32` returns the unsigned big-endian value of the four bytes at the offset, which is in [0, 2^32). |
| Timestamp.Read32AllOnes | app/src/main/java/com/scaredeer/intervalreload/SNTPClient.kt:154-166 | Four bytes 0xFF read as 4294967295, not as -1. |
| Timestamp.ReadTimeStamp | app/src/main/java/com/scaredeer/intervalreload/SNTPClient.kt:172-176 | The result is the whole seconds since 1970 times 1000, plus 0 to 999 milliseconds: the whole milliseconds that the fraction covers. |
| Timestamp.ReadTimeStampLocal | app/src/main/java/com/scaredeer/intervalreload/SNTPClient.kt:172-176 | `readTimeStamp` depends on the eight bytes at the offset and on nothing else. |
| Timestamp.SecondsOfNonNegative | app/src/main/java/com/scaredeer/intervalreload/SNTPClient.kt:184-186 | For a time at or after 1970, the seconds written are the floor of time / 1000 plus the 1900-to-1970 offset. |
| Timestamp.FractionOfNonNegative | app/src/main/java/com/scaredeer/intervalreload/SNTPClient.kt:184-194 | For a time at or after 1970, the fraction is `(time mod 1000) * 2^32 / 1000` and lies in [0, 2^32). |
| Timestamp.SecondsField | app/src/main/java/com/scaredeer/intervalreload/SNTPClient.kt:184-186 | The seconds written are the whole seconds of the time, truncated toward zero, plus the 1900-to-1970 offset: the millisecond remainder lies in [0, 1000) for a non-negative time and in (-1000, 0] for a negative one. |
| Timestamp.FractionField | app/src/main/java/com/scaredeer/intervalreload/SNTPClient.kt:185-194 | The fraction is the millisecond remainder, which takes the sign of the time, scaled by 2^32/1000 and truncated toward zero. It lies in [0, 2^32) for a non-negative time and in (-2^32, 0] for a negative one. |
| Timestamp.TimeStampBytes | app/src/main/java/com/scaredeer/intervalreload/SNTPClient.kt:184-200 | The eight bytes written are the 4-byte big-endian seconds, the top three bytes of the fraction, and the random byte narrowed by `toByte()`. |
| Timestamp.SecondsBytesValue | app/src/main/java/com/scaredeer/intervalreload/SNTPClient.kt:184-192 | For a time at or after 1970, the seconds bytes read back as `time / 1000 + 2208988800` modulo 2^32. |
| Timestamp.FractionBytesValue | app/src/main/java/com/scaredeer/intervalreload/SNTPClient.kt:194-198 | For a time at or after 1970, the three fraction bytes read back as the top 24 bits of `(time mod 1000) * 2^32 / 1000`. |
| Timestamp.WriteTimeStamp | app/src/main/java/com/scaredeer/intervalreload/SNTPClient.kt:182-201 | `writeTimeStamp` changes only the 8 bytes from the offset, and for every time those bytes are the timestamp bytes above. The last of them is the random byte. For a time at or after 1970 the seconds and fraction fields read back as the values above. |
| Timestamp.RoundTrip | app/src/main/java/com/scaredeer/intervalreload/SNTPClient.kt:168-201 | For any time at or after 1970, reading back what was written gives the time, or one millisecond less, after adding back the whole 2^32-second eras the seconds field lost. The random byte does not matter. |
| Timestamp.RoundTripEraZero | app/src/main/java/com/scaredeer/intervalreload/SNTPClient.kt:168-201 | For times from 1970 up to the 2036 rollover, reading back what was written gives `time` or `time - 1`, never more than `time`. |
| Timestamp.FieldReadsBack | app/src/main/java/com/scaredeer/intervalreload/SNTPClient.kt:168-201 | Wherever the eight bytes of an era-0 timestamp sit in a buffer, `readTimeStamp` reads them back as the time or one millisecond less. |
| Timestamp.PrefixFields | app/src/main/java/com/scaredeer/intervalreload/SNTPClient.kt:172-198 | When the first seven of eight bytes are those written for a time at or after 1970, the seconds read back as the whole seconds since 1900 modulo 2^32, and the fraction read back agrees with the scaled millisecond remainder in all but its low byte, whatever that byte is. |
| Timestamp.PrefixReadsBack | app/src/main/java/com/scaredeer/intervalreload/SNTPClient.kt:168-201 | The first seven bytes of an era-0 timestamp decide the time read back: with any last byte, 0xFF included, `readTimeStamp` gives the time or one millisecond less. |
| Timestamp.EpochPrefixReadsZero | app/src/main/java/com/scaredeer/intervalreload/SNTPClient.kt:168-176 | Eight bytes whose first seven are the epoch's timestamp read back as exactly 0, whatever the last byte: a fraction below 256 covers no whole millisecond. |
| Timestamp.NegativeTimeReadsForward | app/src/main/java/com/scaredeer/intervalreload/SNTPClient.kt:184-185 | A time before 1970 does not round trip: writing -1 and reading it back gives 998 or 999, because the millisecond remainder takes the sign of the time. |
| SntpClient.RequestPacket | app/src/main/java/com/scaredeer/intervalreload/SNTPClient.kt:116-127 | The request is 48 bytes. Byte 0 is 0x1B (mode 3, version 3) and bytes 1 to 39 are zero. Bytes 40 to 47 are the timestamp `writeTimeStamp` produces for the request time, whatever that time is. Up to 2036 they read back as the request time, to the millisecond. |
| SntpClient.Receive | app/src/main/java/com/scaredeer/intervalreload/SNTPClient.kt:131-132 | The reply lands in the request's buffer: up to 48 of its bytes replace the front of the buffer, and the bytes past a shorter reply keep the request's content. |
| SntpClient.ReceivedSlice | app/src/main/java/com/scaredeer/intervalreload/SNTPClient.kt:131-132 | After a reply of 48 bytes or more, every stretch of the buffer holds the reply's bytes. |
| SntpClient.ResponseBuffer | app/src/main/java/com/scaredeer/intervalreload/SNTPClient.kt:116-132 | The buffer the timestamps are read from is the request buffer after the receive. It holds the reply's bytes as far as the reply goes. Past a shorter reply it still holds the request: header 0x1B, zeros up to byte 39, and, after a reply of 40 bytes or fewer, the request's transmit timestamp. Every byte past the end of the reply is the request's byte at that position. |
| SntpClient.ReceiveKeepsTail | app/src/main/java/com/scaredeer/intervalreload/SNTPClient.kt:131-132 | Every byte of the request past the end of the reply survives the receive. |
| SntpClient.KeptTimeStamp | app/src/main/java/com/scaredeer/intervalreload/SNTPClient.kt:131-139 | After a reply of 40 bytes or fewer, the transmit time decoded is the one the request carried. |
| SntpClient.EchoedTimeStamp | app/src/main/java/com/scaredeer/intervalreload/SNTPClient.kt:131-137 | A full reply whose originate field repeats the request's transmit bytes decodes to the request's transmit time. |
| SntpClient.FullDatagramReplacesRequest | app/src/main/java/com/scaredeer/intervalreload/SNTPClient.kt:131-132 | A reply of 48 bytes or more overwrites the whole request, so the decoded times depend on the reply alone. |
| SntpClient.ShortDatagramEchoesRequest | app/src/main/java/com/scaredeer/intervalreload/SNTPClient.kt:125-139 | Up to 2036, after a reply of 40 bytes or fewer the transmit time decoded is the request time to the millisecond, since nothing rejects a short reply. |
| SntpClient.ServerEchoesOriginate | app/src/main/java/com/scaredeer/intervalreload/SNTPClient.kt:125-137 | Up to 2036, a server that copies the request's transmit field into its originate field, as section 6 of RFC 4330 asks, makes the decoded originate time the request time to the millisecond. |
| SntpClient.RoundTripTime | app/src/main/java/com/scaredeer/intervalreload/SNTPClient.kt:140 | The `Long` round trip is the exact `(responseTicks - requestTicks) - (transmit - receive)` reduced modulo 2^64, whatever the intermediate subtractions wrapped. |
| SntpClient.ClockCorrection | app/src/main/java/com/scaredeer/intervalreload/SNTPClient.kt:140-146 | The saved reference clock reading is the elapsed-ticks reading taken on arrival. The round trip is the exact `(responseTicks - requestTicks) - (transmit - receive)` reduced modulo 2^64, whatever the intermediate subtractions wrapped. |
| SntpClient.RequestTime | app/src/main/java/com/scaredeer/intervalreload/SNTPClient.kt:146 | The whole transaction saves the arrival ticks as its reference clock reading. |
| SntpClient.ExchangeBound | app/src/main/java/com/scaredeer/intervalreload/SNTPClient.kt:133-147 | In an exchange with server clock offset theta and non-negative outbound, holding and return times, the round trip is the time on the wire. The corrected time misses the server's clock at arrival by at most half the round trip, rounded up. |
| SntpClient.SymmetricExchangeExact | app/src/main/java/com/scaredeer/intervalreload/SNTPClient.kt:134-145 | With equal delays both ways, the corrected time is exactly the server's clock at arrival. |
| SntpClient.CorrectedTime | app/src/main/java/com/scaredeer/intervalreload/SNTPClient.kt:134-145 | For any decoded times within the bound, the corrected time is the response time plus the half-sum of the two one-way differences truncated toward zero: twice the offset falls short of a non-negative sum by 0 or 1 and exceeds a negative sum by 0 or 1. The round trip is the exact elapsed ticks less the holding time, without wrapping. |
| SntpClient.DecodedTimePlausible | app/src/main/java/com/scaredeer/intervalreload/SNTPClient.kt:172-176 | Every decoded timestamp lies from 1900 (-2208988800000 ms) up to, not including, the end of NTP era 0 in 2036 (2^32 seconds after 1900), in milliseconds since 1970. That is inside the bound under which the correction never wraps. |
| SntpClient.RequestTimeCorrection | app/src/main/java/com/scaredeer/intervalreload/SNTPClient.kt:133-145 | For every datagram, short or long, the corrected time of the whole transaction is the response time plus the truncated half-sum computed from the three timestamps decoded from the buffer, and the round trip saved is the elapsed ticks less the decoded transmit-minus-receive time, without wrapping. |
| SntpClient.DecodedExchangeBound | app/src/main/java/com/scaredeer/intervalreload/SNTPClient.kt:133-147 | When each of the originate, receive and transmit times is known only to the millisecond, the round trip is the time on the wire to within one millisecond. The corrected time then misses the server's clock at arrival by at most half the round trip plus two milliseconds. |
| SntpClient.RequestTimeBound | app/src/main/java/com/scaredeer/intervalreload/SNTPClient.kt:112-148 | The whole transaction, up to 2036, against a server that echoes the request's transmit field and stamps the first seven bytes of its receive and transmit fields with its own clock, read to the whole millisecond; the last byte of each may hold anything. The round trip saved is the time on the wire to within one millisecond, and the corrected time misses the server's clock at arrival by at most half the round trip plus two milliseconds. |
| SntpClient.InstantExchangeAtEpoch | app/src/main/java/com/scaredeer/intervalreload/SNTPClient.kt:112-148 | At the epoch, with a server whose clock agrees with the client's and no delay anywhere, filling the last byte of its receive and transmit fields with 0xFF, the bound gives a round trip within a millisecond of zero and a corrected time within two milliseconds of zero. |
| SntpClient.InstantExchangeExact | app/src/main/java/com/scaredeer/intervalreload/SNTPClient.kt:133-147 | The same exchange decoded exactly: the three timestamps read back as the epoch, and the result is corrected time 0, reference reading 0 and round trip 0. |
| SntpClient.EpochReplyReadsZero | app/src/main/java/com/scaredeer/intervalreload/SNTPClient.kt:137-139 | A full reply whose three fields start with the epoch's first seven timestamp bytes decodes all three times as 0, whatever their last bytes. |
| SntpClient.CleanExchangeExample | app/src/main/java/com/scaredeer/intervalreload/SNTPClient.kt:133-147 | Originate 1000, receive 1050, transmit 1060 and arrival 1110 give offset 0, corrected time 1110 and round trip 100. |
| SntpClient.StillExchange | app/src/main/java/com/scaredeer/intervalreload/SNTPClient.kt:134-145 | When every clock reading is zero, the corrected time, the reference reading and the round trip are all zero. |
| SntpClient.OffsetRoundsTowardZero | app/src/main/java/com/scaredeer/intervalreload/SNTPClient.kt:141 | A half-sum of -3 gives an offset of -1, truncated toward zero, where floor division would give -2. |

## Left out

- Network I/O (lines 113-117, 128 and 132) is not modelled: the socket, the host name lookup, the receive timeout, `send` and `receive`. The received datagram is an input. A failure of any of these surfaces as an exception in the source, and there is nothing to compute about it.
- `Receive` assumes the behaviour of a Java `DatagramSocket` filling a `DatagramPacket` over the request buffer. The buffer keeps its 48 bytes and a longer datagram is cut off.
- No protocol error path exists: the source checks neither the reply's length nor its mode or stratum, and the model follows it. A short reply is decoded partly from the request's own bytes (see `SntpClient.ShortDatagramEchoesRequest`).
- `System.currentTimeMillis()`, `SystemClock.elapsedRealtime()` and `Math.random()` (lines 125-126, 133 and 200) are parameters. The random byte is any value in [0, 254], which is what `(Math.random() * 255.0).toInt()` can produce, and no claim is made about it.
- The `ntpTime`, `ntpTimeReference` and `roundTripTime` properties (lines 86-102) are returned as a `TimeResult` value instead of being stored in the object.
- `getDate` (lines 65-78) is not modelled: it is coroutine dispatch plus time-zone formatting from library code.
- `MainActivity`, `MainViewModel` and the build files are not modelled: they are UI timer glue and configuration.
- SntpClient.ExchangeBound: stated only for clocks, delays and offsets within 2^59 ms (about 18 million years) of zero, where no `Long` operation wraps. `ClockCorrection` still computes the wrapped results for other inputs.
- SntpClient.SymmetricExchangeExact: stated under the same bound as `SntpClient.ExchangeBound`.
- SntpClient.DecodedExchangeBound: stated under the same bound as `SntpClient.ExchangeBound`.
- SntpClient.RequestTimeBound: stated for a full reply from a server that follows the protocol, for times up to 2036 and within the same bound as `SntpClient.ExchangeBound`. The server's clock readings are whole milliseconds: the bound is not stated for a server whose fraction carries sub-millisecond bits above the last byte. For other replies the source computes its results all the same, but there is no truth to compare them with.
- SntpClient.RequestTime: its own contract states only the saved reference clock reading. The corrected time it computes from the decoded timestamps and the round trip are stated for every datagram by `SntpClient.RequestTimeCorrection`. `SntpClient.RequestTimeBound` relates both to the true exchange for a server that follows the protocol.
- SntpClient.CorrectedTime: stated under the same bound as `SntpClient.ExchangeBound`. Decoded timestamps always meet it (`SntpClient.DecodedTimePlausible`), so only the client's own clock readings are restricted.
- SntpClient.RequestTimeCorrection: stated for client clock readings within the same bound as `SntpClient.ExchangeBound`.
- Times before 1970 are written as the source writes them (`Timestamp.WriteTimeStamp` states the bytes for every time), but they do not round trip: the negative millisecond remainder gives a fraction that reads forward, as `Timestamp.NegativeTimeReadsForward` shows for -1.
- Timestamp.RoundTripEraZero: stated only up to the 2036 rollover of the seconds field. Beyond it the source writes the seconds modulo 2^32 and reads them back as era 0. `Timestamp.RoundTrip` states the result for every era.

=== FILE: big_endian.dfy ===
/** Unsigned big-endian ("network order") integers stored in signed bytes:
    the reference reading and writing that the timestamp code is checked
    against. */
module BigEndian {
  import opened JvmInt

  /** 256 to the power `n`: one more than the largest `n`-byte value. */
  function Pow256(n: nat): (p: nat)
    ensures p >= 1
  {
    if n == 0 then 1 else 256 * Pow256(n - 1)
  }

  /** The unsigned value of `s`, most significant byte first, each byte
      taken modulo 256. */
  function Value(s: seq<Byte>): (v: nat)
    ensures v < Pow256(|s|)
  {
    if s == [] then 0 else Value(s[..|s| - 1]) * 256 + (s[|s| - 1] as int) % 256
  }

  /** The `n` low-order bytes of `x`, most significant first. */
  function Encode(x: int, n: nat): (s: seq<Byte>)
    ensures |s| == n
    decreases n
  {
    if n == 0 then [] else Encode(x / 256, n - 1) + [ToByte(x)]
  }

  /** Reducing modulo `256 * p` splits into the low byte and the higher
      bytes reduced modulo `p`. */
  lemma ModSplit(x: int, p: int)
    requires p > 0
    ensures (x / 256 % p) * 256 + x % 256 == x % (256 * p)
    ensures x / 256 / p == x / (256 * p)
  {
    var q, r := x / 256, x % 256;
    var k, t := q / p, q % p;
    assert x == q * 256 + r;
    assert q == k * p + t;
    assert x == k * (256 * p) + (t * 256 + r);
    assert t * 256 + r < 256 * p by {
      assert t <= p - 1;
      assert t * 256 <= (p - 1) * 256;
    }
    DivModUnique(x, 256 * p, k, t * 256 + r);
  }

  /** Appending a byte shifts the value up by eight bits. */
  lemma ValueSnoc(s: seq<Byte>, b: Byte)
    ensures Value(s + [b]) == Value(s) * 256 + (b as int) % 256
  {
    assert (s + [b])[..|s|] == s;
  }

  /** Writing `x` in `n` bytes and reading it back gives `x` modulo 256^n. */
  lemma {:induction false} ValueOfEncode(x: int, n: nat)
    ensures Value(Encode(x, n)) == x % Pow256(n)
    decreases n
  {
    if n > 0 {
      ValueOfEncode(x / 256, n - 1);
      ValueSnoc(Encode(x / 256, n - 1), ToByte(x));
      ModSplit(x, Pow256(n - 1));
    }
  }

  /** Reading a byte string and writing the value back reproduces the
      string: no two byte strings of one length share a value. */
  lemma {:induction false} EncodeOfValue(s: seq<Byte>)
    ensures Encode(Value(s), |s|) == s
  {
    if s != [] {
      var init, last := s[..|s| - 1], s[|s| - 1];
      var v := Value(s);
      DivModUnique(v, 256, Value(init), (last as int) % 256);
      ToByteUnique(v, last);
      EncodeOfValue(init);
      assert s == init + [last];
    }
  }

  /** The three bytes above the low byte of `x`, spelled out as the right
      shifts by 24, 16 and 8 bits that keep one byte each. */
  lemma EncodeHighThree(x: int)
    ensures Encode(x / 256, 3) == [ToByte(x / 0x100_0000), ToByte(x / 0x1_0000), ToByte(x / 0x100)]
  {
    EncodeFour(x);
  }

  /** The four bytes of `x`, spelled out as the successive right shifts by
      24, 16, 8 and 0 bits that keep one byte each. */
  lemma EncodeFour(x: int)
    ensures Encode(x, 4) == [ToByte(x / 0x100_0000), ToByte(x / 0x1_0000), ToByte(x / 0x100), ToByte(x)]
  {
    ModSplit(x, 256);
    ModSplit(x, 0x1_0000);
    assert x / 256 / 256 / 256 == x / 0x100_0000 by {
      ModSplit(x / 256, 256);
    }
    assert Encode(x / 256 / 256 / 256, 1) == [ToByte(x / 256 / 256 / 256)];
    assert Encode(x / 256 / 256, 2) == [ToByte(x / 256 / 256 / 256), ToByte(x / 256 / 256)];
    assert Encode(x / 256, 3) == [ToByte(x / 256 / 256 / 256), ToByte(x / 256 / 256), ToByte(x / 256)];
  }
}

=== FILE: jvm_int.dfy ===
/** The Kotlin/JVM integer semantics the SNTP client relies on, written out
    over Dafny's unbounded integers: the 64-bit `Long` with its silent
    wrap-around, `Long` division (which rounds toward zero, unlike Dafny's
    Euclidean `/`), the narrowing conversion `toByte()`, and the 32-bit
    two's-complement bit pattern of an `Int`. */
module JvmInt {

  const LongMin: int := -0x8000_0000_0000_0000
  const LongMax: int := 0x7FFF_FFFF_FFFF_FFFF
  const LongModulus: int := 0x1_0000_0000_0000_0000
  const IntMin: int := -0x8000_0000
  const IntMax: int := 0x7FFF_FFFF

  /** A Kotlin `Long` value. */
  type Long = x: int | LongMin <= x <= LongMax

  /** A Kotlin `Byte` value: the elements of a `ByteArray` are signed. */
  type Byte = x: int | -128 <= x <= 127

  /** The result of a `Long` addition or subtraction: the exact result
      reduced into the `Long` range modulo 2^64. */
  function WrapLong(x: int): (r: Long)
    ensures (x - r) % LongModulus == 0
    ensures LongMin <= x <= LongMax ==> r == x
  {
    var k := (x - LongMin) / LongModulus;
    assert x - LongMin == k * LongModulus + (x - LongMin) % LongModulus;
    (x - LongMin) % LongModulus + LongMin
  }

  /** Adding whole multiples of 2^64 does not change the wrapped value. */
  lemma WrapLongShift(x: int, k: int)
    ensures WrapLong(x + k * LongModulus) == WrapLong(x)
  {
    var q, r := (x - LongMin) / LongModulus, (x - LongMin) % LongModulus;
    assert x - LongMin == q * LongModulus + r;
    assert x + k * LongModulus - LongMin == (q + k) * LongModulus + r;
    DivModUnique(x + k * LongModulus - LongMin, LongModulus, q + k, r);
  }

  /** Wrapping the operands of a subtraction first changes nothing: the
      wrapped difference of wrapped values is the wrapped exact difference. */
  lemma WrapLongDifference(a: int, b: int)
    ensures WrapLong(WrapLong(a) - WrapLong(b)) == WrapLong(a - b)
  {
    var ka, kb := (a - LongMin) / LongModulus, (b - LongMin) / LongModulus;
    assert a - LongMin == ka * LongModulus + (a - LongMin) % LongModulus;
    assert b - LongMin == kb * LongModulus + (b - LongMin) % LongModulus;
    assert WrapLong(a) - WrapLong(b) == (a - b) + (kb - ka) * LongModulus;
    WrapLongShift(a - b, kb - ka);
  }

  /** Kotlin `a / d` for a positive divisor: the quotient rounds toward
      zero, so the remainder takes the sign of the dividend. */
  function Div(a: int, d: int): (q: int)
    requires d > 0
    ensures 0 <= a ==> 0 <= a - q * d < d
    ensures a < 0 ==> -d < a - q * d <= 0
  {
    if a >= 0 then a / d else -((-a) / d)
  }

  /** `toByte()`: keeps the low eight bits and reads them as a signed byte. */
  function ToByte(x: int): (b: Byte)
    ensures (x - b) % 256 == 0
  {
    var low := x % 256;
    if low < 128 then low else low - 256
  }

  /** `toByte()` is the only way to name a congruence class modulo 256 by a
      `Byte`: any byte congruent to `x` is the one it returns. */
  lemma ToByteUnique(x: int, b: Byte)
    requires (x - b) % 256 == 0
    ensures ToByte(x) == b
  {
  }

  /** 2 to the power `n`. */
  function Pow2(n: nat): (p: nat)
    ensures p >= 1
  {
    if n == 0 then 1 else 2 * Pow2(n - 1)
  }

  /** The 32-bit two's-complement pattern of an `Int`, read as an unsigned
      number: this is what the bitwise operators act on. */
  function IntPattern(x: int): (p: nat)
    requires IntMin <= x <= IntMax
    ensures p < 0x1_0000_0000
  {
    x % 0x1_0000_0000
  }

  /** Bitwise `and` of two bit patterns, one binary digit at a time. */
  function BitAnd(a: nat, b: nat): nat {
    if a == 0 || b == 0 then 0
    else 2 * BitAnd(a / 2, b / 2) + (if a % 2 == 1 && b % 2 == 1 then 1 else 0)
  }

  /** Bitwise `or` of two bit patterns, one binary digit at a time. */
  function BitOr(a: nat, b: nat): nat {
    if a == 0 then b
    else if b == 0 then a
    else 2 * BitOr(a / 2, b / 2) + (if a % 2 == 1 || b % 2 == 1 then 1 else 0)
  }

  /** `shl` on an `Int`: the shift count is taken modulo 32 and the bits
      shifted past bit 31 are lost. */
  function ShiftLeft(p: nat, n: nat): nat {
    p * Pow2(n % 32) % 0x1_0000_0000
  }

  /** Halving a quotient by `2^k` gives the quotient by `2^(k+1)`. */
  lemma HalfQuotient(a: nat, k: nat)
    ensures a / 2 / Pow2(k) == a / Pow2(k + 1)
    ensures (a / 2 % Pow2(k)) * 2 + a % 2 == a % Pow2(k + 1)
  {
    var q, r := a / 2, a % 2;
    var t, u := q / Pow2(k), q % Pow2(k);
    assert a == q * 2 + r;
    assert q == t * Pow2(k) + u;
    assert a == t * Pow2(k + 1) + (u * 2 + r);
    DivModUnique(a, Pow2(k + 1), t, u * 2 + r);
  }

  /** Euclidean division is unique: a quotient and remainder in range are
      the ones Dafny's `/` and `%` compute. */
  lemma DivModUnique(x: int, m: int, q: int, r: int)
    requires m > 0 && 0 <= r < m && x == q * m + r
    ensures x / m == q && x % m == r
  {
    var q', r' := x / m, x % m;
    assert x == q' * m + r';
    assert (q' - q) * m == r - r';
    if q' > q {
      MulAtLeast(q' - q, m);
    } else if q' < q {
      MulAtLeast(q - q', m);
    }
  }

  /** A positive multiple of `m` is at least `m`. */
  lemma MulAtLeast(a: int, m: int)
    requires a >= 1 && m > 0
    ensures a * m >= m
  {
    assert a * m == m + (a - 1) * m;
  }

  /** Masking with `2^k - 1` keeps the `k` low bits: the remainder modulo
      `2^k`. */
  lemma {:induction false} AndLowMask(a: nat, k: nat)
    ensures BitAnd(a, Pow2(k) - 1) == a % Pow2(k)
    decreases k
  {
    if k == 0 {
      assert a % 1 == 0;
    } else if a != 0 {
      var half := Pow2(k - 1);
      var mask := Pow2(k) - 1;
      DivModUnique(mask, 2, half - 1, 1);
      assert mask != 0;
      calc {
        BitAnd(a, mask);
        2 * BitAnd(a / 2, mask / 2) + (if a % 2 == 1 && mask % 2 == 1 then 1 else 0);
        2 * BitAnd(a / 2, half - 1) + a % 2;
        { AndLowMask(a / 2, k - 1); }
        2 * (a / 2 % half) + a % 2;
        { HalfQuotient(a, k - 1); }
        a % Pow2(k);
      }
    }
  }

  /** Masking with `2^k` keeps bit `k` alone. */
  lemma {:induction false} AndSingleBit(a: nat, k: nat)
    ensures BitAnd(a, Pow2(k)) == a / Pow2(k) % 2 * Pow2(k)
    decreases k
  {
    if a == 0 {
      DivModUnique(0, Pow2(k), 0, 0);
    } else if k == 0 {
      assert BitAnd(a, 1) == 2 * BitAnd(a / 2, 0) + a % 2;
      DivModUnique(a, 1, a, 0);
    } else {
      var half := Pow2(k - 1);
      DivModUnique(Pow2(k), 2, half, 0);
      calc {
        BitAnd(a, Pow2(k));
        2 * BitAnd(a / 2, half);
        { AndSingleBit(a / 2, k - 1); }
        2 * (a / 2 / half % 2 * half);
        { HalfQuotient(a, k - 1); }
        a / Pow2(k) % 2 * Pow2(k);
      }
    }
  }

  /** `or` of a value below `2^k` with a multiple of `2^k` is their sum:
      the two occupy disjoint bits. */
  lemma {:induction false} OrDisjoint(a: nat, b: nat, k: nat)
    requires a < Pow2(k)
    ensures BitOr(a, b * Pow2(k)) == a + b * Pow2(k)
    decreases k
  {
    if a != 0 && b != 0 {
      var half := Pow2(k - 1);
      assert b * Pow2(k) == 2 * (b * half);
      DivModUnique(b * Pow2(k), 2, b * half, 0);
      calc {
        BitOr(a, b * Pow2(k));
        2 * BitOr(a / 2, b * half) + a % 2;
        { OrDisjoint(a / 2, b, k - 1); }
        2 * (a / 2 + b * half) + a % 2;
      }
    }
  }
}

=== FILE: ntp_packet.dfy ===
/** The fixed layout of the 48-byte SNTP packet and the protocol constants
    of the client (section 4 of RFC 4330). */
module NtpPacket {
  import opened JvmInt

  /** Byte offsets of the three 8-byte timestamps the client reads. */
  const OriginateTimeOffset: int := 24
  const ReceiveTimeOffset: int := 32
  const TransmitTimeOffset: int := 40
  const TimestampSize: int := 8
  const PacketSize: int := 48

  /** The server's UDP port; only the network exchange, which the model
      replaces by its inputs, uses it. */
  const NtpPort: int := 123

  const ModeClient: int := 3
  const Version: int := 3

  /** Seconds from 1900-01-01 to 1970-01-01: seventy years of 365 days plus
      the seventeen leap days among them. */
  const Offset1900To1970: int := (365 * 70 + 17) * 24 * 60 * 60

  /** The era-0 span of the 32-bit seconds field. */
  const SecondsModulus: int := 0x1_0000_0000

  /** The 1900-to-1970 offset is the constant section 3 of RFC 4330 names,
      and it fits the 32-bit seconds field. */
  lemma OffsetValue()
    ensures Offset1900To1970 == 2208988800
    ensures 0 < Offset1900To1970 < SecondsModulus
  {
  }

  /** The originate, receive and transmit fields follow each other without
      overlap and the last one ends exactly at the end of the packet. */
  lemma FieldsTilePacketTail()
    ensures OriginateTimeOffset + TimestampSize == ReceiveTimeOffset
    ensures ReceiveTimeOffset + TimestampSize == TransmitTimeOffset
    ensures TransmitTimeOffset + TimestampSize == PacketSize
  {
  }

  /** The mode field of a header byte: its bits 0-2. */
  function Mode(header: Byte): int {
    header % 256 % 8
  }

  /** The version field of a header byte: its bits 3-5. */
  function VersionNumber(header: Byte): int {
    header % 256 / 8 % 8
  }

  /** The leap indicator of a header byte: its bits 6-7. */
  function LeapIndicator(header: Byte): int {
    header % 256 / 64
  }

  /** `mode or (version shl 3)` on `Int`: with both fields below 8 the
      `or` places the version bits directly above the mode bits. */
  function HeaderBits(mode: int, version: int): (bits: nat)
    requires 0 <= mode < 8 && 0 <= version < 8
    ensures bits == mode + version * 8
  {
    var shifted := ShiftLeft(IntPattern(version), 3);
    assert shifted == version * Pow2(3) by {
      assert IntPattern(version) == version;
      assert 3 % 32 == 3;
      assert Pow2(3) == 8;
    }
    assert IntPattern(mode) == mode;
    OrDisjoint(mode, version, 3);
    BitOr(IntPattern(mode), shifted)
  }

  /** The first byte of a request: the header bits narrowed with
      `toByte()`. The mode lands in bits 0-2, the version in bits 3-5 and
      the leap indicator stays clear. */
  function Header(mode: int, version: int): (header: Byte)
    requires 0 <= mode < 8 && 0 <= version < 8
    ensures Mode(header) == mode
    ensures VersionNumber(header) == version
    ensures LeapIndicator(header) == 0
    ensures 0 <= header < 64
  {
    var bits := HeaderBits(mode, version);
    DivModUnique(bits, 256, 0, bits);
    DivModUnique(bits, 8, version, mode);
    DivModUnique(bits, 64, 0, bits);
    DivModUnique(version, 8, 0, version);
    ToByte(bits)
  }

  /** The client's request header: mode 3 (client) and version 3, the
      byte 0x1B. */
  lemma RequestHeader()
    ensures Header(ModeClient, Version) == 0x1B
  {
    var header := Header(ModeClient, Version);
    DivModUnique(header, 256, 0, header);
    DivModUnique(header / 8, 8, 0, header / 8);
    DivModUnique(header, 8, 3, 3);
  }
}

=== FILE: sntp_client.dfy ===
/** One transaction of the SNTP client (`requestTime`), with the network
    and the clocks turned into inputs: the wall-clock and elapsed-ticks
    readings, the random byte of the request timestamp and the datagram
    the server sends back. Round-trip delay and clock offset follow
    section 5 of RFC 4330. */
module SntpClient {
  import opened JvmInt
  import opened BigEndian
  import opened NtpPacket
  import opened Timestamp

  /** What a transaction saves: the corrected time, the elapsed-ticks
      reading it corresponds to, and the round-trip delay, all in
      milliseconds. */
  datatype TimeResult = TimeResult(ntpTime: Long, ntpTimeReference: Long, roundTripTime: Long)

  /** The request: a zeroed 48-byte buffer whose first byte asks for
      client mode and version 3 and whose transmit field holds the request
      time. Every other byte stays zero. */
  function RequestPacket(requestTime: Long, noise: int): (packet: seq<Byte>)
    requires 0 <= noise < 255
    ensures |packet| == PacketSize
    ensures packet[0] == 0x1B
    ensures Mode(packet[0]) == ModeClient && VersionNumber(packet[0]) == Version
    ensures forall i :: 0 < i < TransmitTimeOffset ==> packet[i] == 0
    ensures packet[TransmitTimeOffset..PacketSize] == TimeStampBytes(requestTime, noise)
    ensures EraZero(requestTime) ==>
              requestTime - 1 <= ReadTimeStamp(packet, TransmitTimeOffset) <= requestTime
  {
    var zeroed: seq<Byte> := seq(PacketSize, _ => 0);
    var buffer := zeroed[0 := Header(ModeClient, Version)];
    RequestHeader();
    var packet := WriteTimeStamp(buffer, TransmitTimeOffset, requestTime, noise);
    if EraZero(requestTime) then
      RoundTripEraZero(buffer, TransmitTimeOffset, requestTime, noise);
      packet
    else
      packet
  }

  /** `socket.receive` into the request buffer: the datagram's bytes land
      at the front of the buffer, at most 48 of them, and the bytes past a
      shorter datagram keep what the request put there. No length, mode or
      stratum is checked. */
  function Receive(buffer: seq<Byte>, datagram: seq<Byte>): (received: seq<Byte>)
    requires |buffer| == PacketSize
    ensures |received| == PacketSize
    ensures forall i :: 0 <= i < |datagram| && i < PacketSize ==> received[i] == datagram[i]
    ensures forall i :: |datagram| <= i < PacketSize ==> received[i] == buffer[i]
  {
    if |datagram| >= PacketSize then datagram[..PacketSize] else datagram + buffer[|datagram|..]
  }

  /** The bytes of the request past the end of the datagram survive the
      receive unchanged. */
  lemma ReceiveKeepsTail(buffer: seq<Byte>, datagram: seq<Byte>, from: int)
    requires |buffer| == PacketSize
    requires |datagram| <= from <= PacketSize
    ensures Receive(buffer, datagram)[from..] == buffer[from..]
  {
    assert Receive(buffer, datagram) == datagram + buffer[|datagram|..];
  }

  /** After a datagram of 48 bytes or more, every stretch of the buffer
      holds the datagram's bytes. */
  lemma ReceivedSlice(buffer: seq<Byte>, datagram: seq<Byte>, from: int, to: int)
    requires |buffer| == PacketSize && PacketSize <= |datagram|
    requires 0 <= from <= to <= PacketSize
    ensures Receive(buffer, datagram)[from..to] == datagram[from..to]
  {
  }

  /** The transmit time decoded after a datagram of 40 bytes or fewer is
      the one the request itself carried. */
  lemma KeptTimeStamp(packet: seq<Byte>, datagram: seq<Byte>)
    requires |packet| == PacketSize && |datagram| <= TransmitTimeOffset
    ensures ReadTimeStamp(Receive(packet, datagram), TransmitTimeOffset) == ReadTimeStamp(packet, TransmitTimeOffset)
  {
    var buffer := Receive(packet, datagram);
    ReceiveKeepsTail(packet, datagram, TransmitTimeOffset);
    ReadTimeStampLocal(buffer, TransmitTimeOffset, packet, TransmitTimeOffset);
  }

  /** The buffer the timestamps are read from after the exchange. */
  function ResponseBuffer(requestTime: Long, noise: int, datagram: seq<Byte>): (buffer: seq<Byte>)
    requires 0 <= noise < 255
    ensures |buffer| == PacketSize
    ensures forall i :: 0 <= i < |datagram| && i < PacketSize ==> buffer[i] == datagram[i]
    ensures |datagram| == 0 ==> buffer[0] == 0x1B
    ensures forall i :: |datagram| <= i < TransmitTimeOffset && 0 < i ==> buffer[i] == 0
    ensures |datagram| <= TransmitTimeOffset ==>
              buffer[TransmitTimeOffset..PacketSize] == TimeStampBytes(requestTime, noise)
    ensures forall i :: |datagram| <= i < PacketSize ==> buffer[i] == RequestPacket(requestTime, noise)[i]
  {
    var packet := RequestPacket(requestTime, noise);
    if |datagram| <= TransmitTimeOffset then
      ReceiveKeepsTail(packet, datagram, TransmitTimeOffset);
      Receive(packet, datagram)
    else
      Receive(packet, datagram)
  }

  /** The round trip in `Long`: the elapsed ticks less the server's holding
      time, each subtraction wrapping. The wraps cancel: the result is the
      exact round trip reduced modulo 2^64. */
  function RoundTripTime(requestTicks: Long, responseTicks: Long, receiveTime: Long, transmitTime: Long): (roundTrip: Long)
    ensures roundTrip == WrapLong((responseTicks - requestTicks) - (transmitTime - receiveTime))
  {
    WrapLongDifference(responseTicks - requestTicks, transmitTime - receiveTime);
    WrapLong(WrapLong(responseTicks - requestTicks) - WrapLong(transmitTime - receiveTime))
  }

  /** The arithmetic after the exchange, in `Long`: the response time is
      the request time advanced by the elapsed ticks; the round trip is the
      elapsed ticks less the server's holding time; the clock offset is the
      truncated half-sum of the two one-way differences; the corrected time
      is the response time plus the offset. */
  function ClockCorrection(requestTime: Long, requestTicks: Long, responseTicks: Long,
                           originateTime: Long, receiveTime: Long, transmitTime: Long): (result: TimeResult)
    ensures result.ntpTimeReference == responseTicks
    ensures result.roundTripTime == WrapLong((responseTicks - requestTicks) - (transmitTime - receiveTime))
  {
    var elapsed := WrapLong(responseTicks - requestTicks);
    var responseTime := WrapLong(requestTime + elapsed);
    var roundTripTime := RoundTripTime(requestTicks, responseTicks, receiveTime, transmitTime);
    var clockOffset := Div(WrapLong(WrapLong(receiveTime - originateTime) + WrapLong(transmitTime - responseTime)), 2);
    TimeResult(WrapLong(responseTime + clockOffset), responseTicks, roundTripTime)
  }

  /** `requestTime`: build and "send" the request, take the datagram into
      the same buffer, decode the originate, receive and transmit
      timestamps and correct the clock. */
  function RequestTime(requestTime: Long, requestTicks: Long, responseTicks: Long,
                       noise: int, datagram: seq<Byte>): (result: TimeResult)
    requires 0 <= noise < 255
    ensures result.ntpTimeReference == responseTicks
  {
    var buffer := ResponseBuffer(requestTime, noise, datagram);
    var originateTime := ReadTimeStamp(buffer, OriginateTimeOffset);
    var receiveTime := ReadTimeStamp(buffer, ReceiveTimeOffset);
    var transmitTime := ReadTimeStamp(buffer, TransmitTimeOffset);
    ClockCorrection(requestTime, requestTicks, responseTicks, originateTime, receiveTime, transmitTime)
  }

  /** A bound on clock readings, delays and offsets: about 18 million
      years of milliseconds either side of 1970. Sums of a few such values
      stay far inside the `Long` range, so no operation of the correction
      wraps. */
  predicate Plausible(x: int) {
    -0x800_0000_0000_0000 <= x <= 0x800_0000_0000_0000
  }

  /** The exchange of section 5 of RFC 4330, with the server's clock ahead
      of the client's by `theta`, the request taking `outbound` ms to
      arrive, the server holding it for `holding` ms and the reply taking
      `inbound` ms back. The round trip is then exactly the time spent on
      the wire, and the corrected time misses the server's clock at the
      moment of arrival by at most half the round trip (rounded up). */
  lemma ExchangeBound(requestTime: Long, requestTicks: Long, responseTicks: Long,
                      originateTime: Long, receiveTime: Long, transmitTime: Long,
                      theta: int, outbound: nat, holding: nat, inbound: nat)
    requires Plausible(requestTime) && Plausible(requestTicks) && Plausible(responseTicks)
    requires Plausible(theta) && Plausible(outbound) && Plausible(holding) && Plausible(inbound)
    requires originateTime == requestTime
    requires receiveTime == requestTime + outbound + theta
    requires transmitTime == receiveTime + holding
    requires responseTicks - requestTicks == outbound + holding + inbound
    ensures var result := ClockCorrection(requestTime, requestTicks, responseTicks, originateTime, receiveTime, transmitTime);
            var serverTime := requestTime + (responseTicks - requestTicks) + theta;
            && result.roundTripTime == outbound + inbound
            && -(result.roundTripTime + 1) <= 2 * (result.ntpTime - serverTime) <= result.roundTripTime + 1
  {
  }

  /** With equal delays both ways the correction is exact: the corrected
      time is the server's clock at the moment of arrival. */
  lemma SymmetricExchangeExact(requestTime: Long, requestTicks: Long, responseTicks: Long,
                               originateTime: Long, receiveTime: Long, transmitTime: Long,
                               theta: int, delay: nat, holding: nat)
    requires Plausible(requestTime) && Plausible(requestTicks) && Plausible(responseTicks)
    requires Plausible(theta) && Plausible(delay) && Plausible(holding)
    requires originateTime == requestTime
    requires receiveTime == requestTime + delay + theta
    requires transmitTime == receiveTime + holding
    requires responseTicks - requestTicks == delay + holding + delay
    ensures ClockCorrection(requestTime, requestTicks, responseTicks, originateTime, receiveTime, transmitTime).ntpTime
            == requestTime + (responseTicks - requestTicks) + theta
  {
  }

  /** For any decoded timestamps within the bound, the corrected time is
      the response time plus half the sum of the two one-way differences,
      the half truncated toward zero: at most half a millisecond short of
      the exact half-sum when that sum is positive, at most half a
      millisecond over when it is negative. The round trip does not wrap. */
  lemma CorrectedTime(requestTime: Long, requestTicks: Long, responseTicks: Long,
                      originateTime: Long, receiveTime: Long, transmitTime: Long)
    requires Plausible(requestTime) && Plausible(requestTicks) && Plausible(responseTicks)
    requires Plausible(originateTime) && Plausible(receiveTime) && Plausible(transmitTime)
    ensures var result := ClockCorrection(requestTime, requestTicks, responseTicks, originateTime, receiveTime, transmitTime);
            var responseTime := requestTime + (responseTicks - requestTicks);
            var sum := (receiveTime - originateTime) + (transmitTime - responseTime);
            && (0 <= sum ==> 0 <= sum - 2 * (result.ntpTime - responseTime) <= 1)
            && (sum < 0 ==> -1 <= sum - 2 * (result.ntpTime - responseTime) <= 0)
            && result.roundTripTime == (responseTicks - requestTicks) - (transmitTime - receiveTime)
  {
  }

  /** A decoded timestamp lies between 1900 and the end of NTP era 0
      (February 2036), measured from 1970, well inside the bound. */
  lemma DecodedTimePlausible(buffer: seq<Byte>, offset: int)
    requires 0 <= offset && offset + TimestampSize <= |buffer|
    ensures -Offset1900To1970 * 1000 <= ReadTimeStamp(buffer, offset) < (SecondsModulus - Offset1900To1970) * 1000
    ensures Plausible(ReadTimeStamp(buffer, offset))
  {
  }

  /** `CorrectedTime` for whatever datagram arrives: the corrected time of
      the whole transaction is the response time plus the truncated half of
      the one-way differences between the three decoded timestamps, and the
      round trip is the elapsed ticks less the decoded holding time, with
      no wrap. */
  lemma RequestTimeCorrection(requestTime: Long, requestTicks: Long, responseTicks: Long,
                              noise: int, datagram: seq<Byte>)
    requires 0 <= noise < 255
    requires Plausible(requestTime) && Plausible(requestTicks) && Plausible(responseTicks)
    ensures var buffer := ResponseBuffer(requestTime, noise, datagram);
            var result := RequestTime(requestTime, requestTicks, responseTicks, noise, datagram);
            var responseTime := requestTime + (responseTicks - requestTicks);
            var sum := (ReadTimeStamp(buffer, ReceiveTimeOffset) - ReadTimeStamp(buffer, OriginateTimeOffset))
                       + (ReadTimeStamp(buffer, TransmitTimeOffset) - responseTime);
            && (0 <= sum ==> 0 <= sum - 2 * (result.ntpTime - responseTime) <= 1)
            && (sum < 0 ==> -1 <= sum - 2 * (result.ntpTime - responseTime) <= 0)
            && result.roundTripTime == (responseTicks - requestTicks)
                                       - (ReadTimeStamp(buffer, TransmitTimeOffset) - ReadTimeStamp(buffer, ReceiveTimeOffset))
  {
    var buffer := ResponseBuffer(requestTime, noise, datagram);
    DecodedTimePlausible(buffer, OriginateTimeOffset);
    DecodedTimePlausible(buffer, ReceiveTimeOffset);
    DecodedTimePlausible(buffer, TransmitTimeOffset);
    CorrectedTime(requestTime, requestTicks, responseTicks, ReadTimeStamp(buffer, OriginateTimeOffset),
                  ReadTimeStamp(buffer, ReceiveTimeOffset), ReadTimeStamp(buffer, TransmitTimeOffset));
  }

  /** `ExchangeBound` when each of the three server-side times is known only
      to the millisecond, as decoding a timestamp leaves it: the round trip
      is off by at most one and the corrected time misses the server's clock
      by at most half the round trip plus two milliseconds. */
  lemma DecodedExchangeBound(requestTime: Long, requestTicks: Long, responseTicks: Long,
                             originateTime: Long, receiveTime: Long, transmitTime: Long,
                             theta: int, outbound: nat, holding: nat, inbound: nat)
    requires Plausible(requestTime) && Plausible(requestTicks) && Plausible(responseTicks)
    requires Plausible(theta) && Plausible(outbound) && Plausible(holding) && Plausible(inbound)
    requires requestTime - 1 <= originateTime <= requestTime
    requires requestTime + outbound + theta - 1 <= receiveTime <= requestTime + outbound + theta
    requires requestTime + outbound + theta + holding - 1 <= transmitTime <= requestTime + outbound + theta + holding
    requires responseTicks - requestTicks == outbound + holding + inbound
    ensures var result := ClockCorrection(requestTime, requestTicks, responseTicks, originateTime, receiveTime, transmitTime);
            var serverTime := requestTime + (responseTicks - requestTicks) + theta;
            && outbound + inbound - 1 <= result.roundTripTime <= outbound + inbound + 1
            && -(result.roundTripTime + 4) <= 2 * (result.ntpTime - serverTime) <= result.roundTripTime + 4
  {
  }

  /** The whole transaction against a server that follows section 6 of
      RFC 4330: it echoes the request's transmit field as its originate
      field and stamps its receive and transmit fields with its own clock,
      `theta` ahead of the client's, read to the whole millisecond; the
      last byte of each of its fields may hold anything. Up to 2036 the
      round trip saved is the time on the wire to within a millisecond,
      and the corrected time misses the server's clock at arrival by at
      most half the round trip plus two milliseconds. */
  lemma RequestTimeBound(requestTime: Long, requestTicks: Long, responseTicks: Long, noise: int,
                         datagram: seq<Byte>, serverReceive: Long, serverTransmit: Long,
                         theta: int, outbound: nat, holding: nat, inbound: nat)
    requires 0 <= noise < 255
    requires PacketSize <= |datagram|
    requires datagram[OriginateTimeOffset..ReceiveTimeOffset] == TimeStampBytes(requestTime, noise)
    requires datagram[ReceiveTimeOffset..TransmitTimeOffset - 1] == TimeStampBytes(serverReceive, 0)[..7]
    requires datagram[TransmitTimeOffset..PacketSize - 1] == TimeStampBytes(serverTransmit, 0)[..7]
    requires EraZero(requestTime) && EraZero(serverReceive) && EraZero(serverTransmit)
    requires Plausible(requestTime) && Plausible(requestTicks) && Plausible(responseTicks)
    requires Plausible(theta) && Plausible(outbound) && Plausible(holding) && Plausible(inbound)
    requires serverReceive == requestTime + outbound + theta
    requires serverTransmit == serverReceive + holding
    requires responseTicks - requestTicks == outbound + holding + inbound
    ensures var result := RequestTime(requestTime, requestTicks, responseTicks, noise, datagram);
            var serverTime := requestTime + (responseTicks - requestTicks) + theta;
            && outbound + inbound - 1 <= result.roundTripTime <= outbound + inbound + 1
            && -(result.roundTripTime + 4) <= 2 * (result.ntpTime - serverTime) <= result.roundTripTime + 4
  {
    var packet := RequestPacket(requestTime, noise);
    var buffer := Receive(packet, datagram);
    ReceivedSlice(packet, datagram, OriginateTimeOffset, ReceiveTimeOffset);
    ReceivedSlice(packet, datagram, ReceiveTimeOffset, TransmitTimeOffset - 1);
    ReceivedSlice(packet, datagram, TransmitTimeOffset, PacketSize - 1);
    FieldReadsBack(buffer, OriginateTimeOffset, requestTime, noise);
    PrefixReadsBack(buffer, ReceiveTimeOffset, serverReceive);
    PrefixReadsBack(buffer, TransmitTimeOffset, serverTransmit);
    DecodedExchangeBound(requestTime, requestTicks, responseTicks,
                         ReadTimeStamp(buffer, OriginateTimeOffset), ReadTimeStamp(buffer, ReceiveTimeOffset),
                         ReadTimeStamp(buffer, TransmitTimeOffset), theta, outbound, holding, inbound);
  }

  /** An instance of `RequestTimeBound`: at the epoch, a server whose clock
      agrees with the client's answers instantly over a wire without delay,
      filling the last byte of its own fields with 0xFF. The bound gives a
      round trip within a millisecond of zero and a corrected time within
      two milliseconds of it; `InstantExchangeExact` shows both are zero. */
  lemma InstantExchangeAtEpoch()
    ensures var stamp := TimeStampBytes(0, 0);
            var served := stamp[..7] + [-1];
            var datagram := seq(OriginateTimeOffset, _ => 0) + stamp + served + served;
            var result := RequestTime(0, 0, 0, 0, datagram);
            && -1 <= result.roundTripTime <= 1
            && -5 <= 2 * result.ntpTime <= 5
  {
    var stamp := TimeStampBytes(0, 0);
    var served := stamp[..7] + [-1];
    var zeros: seq<Byte> := seq(OriginateTimeOffset, _ => 0);
    var datagram := zeros + stamp + served + served;
    assert datagram[OriginateTimeOffset..ReceiveTimeOffset] == stamp;
    assert datagram[ReceiveTimeOffset..TransmitTimeOffset - 1] == stamp[..7];
    assert datagram[TransmitTimeOffset..PacketSize - 1] == stamp[..7];
    OffsetValue();
    RequestTimeBound(0, 0, 0, 0, datagram, 0, 0, 0, 0, 0, 0);
  }

  /** A full reply whose three timestamp fields start with the first seven
      bytes of the epoch's timestamp decodes all three as the epoch. */
  lemma EpochReplyReadsZero(packet: seq<Byte>, datagram: seq<Byte>)
    requires |packet| == PacketSize && PacketSize <= |datagram|
    requires datagram[OriginateTimeOffset..ReceiveTimeOffset - 1] == TimeStampBytes(0, 0)[..7]
    requires datagram[ReceiveTimeOffset..TransmitTimeOffset - 1] == TimeStampBytes(0, 0)[..7]
    requires datagram[TransmitTimeOffset..PacketSize - 1] == TimeStampBytes(0, 0)[..7]
    ensures var buffer := Receive(packet, datagram);
            && ReadTimeStamp(buffer, OriginateTimeOffset) == 0
            && ReadTimeStamp(buffer, ReceiveTimeOffset) == 0
            && ReadTimeStamp(buffer, TransmitTimeOffset) == 0
  {
    var buffer := Receive(packet, datagram);
    ReceivedSlice(packet, datagram, OriginateTimeOffset, ReceiveTimeOffset - 1);
    ReceivedSlice(packet, datagram, ReceiveTimeOffset, TransmitTimeOffset - 1);
    ReceivedSlice(packet, datagram, TransmitTimeOffset, PacketSize - 1);
    EpochPrefixReadsZero(buffer, OriginateTimeOffset);
    EpochPrefixReadsZero(buffer, ReceiveTimeOffset);
    EpochPrefixReadsZero(buffer, TransmitTimeOffset);
  }

  /** The exchange of `InstantExchangeAtEpoch` decoded exactly: the three
      timestamps read back as the epoch, so the round trip, the offset and
      the corrected time are all zero. */
  lemma InstantExchangeExact()
    ensures var stamp := TimeStampBytes(0, 0);
            var served := stamp[..7] + [-1];
            var datagram := seq(OriginateTimeOffset, _ => 0) + stamp + served + served;
            RequestTime(0, 0, 0, 0, datagram) == TimeResult(0, 0, 0)
  {
    var stamp := TimeStampBytes(0, 0);
    var served := stamp[..7] + [-1];
    var zeros: seq<Byte> := seq(OriginateTimeOffset, _ => 0);
    var datagram := zeros + stamp + served + served;
    assert datagram[OriginateTimeOffset..ReceiveTimeOffset - 1] == stamp[..7];
    assert datagram[ReceiveTimeOffset..TransmitTimeOffset - 1] == stamp[..7];
    assert datagram[TransmitTimeOffset..PacketSize - 1] == stamp[..7];
    EpochReplyReadsZero(RequestPacket(0, 0), datagram);
    StillExchange();
  }

  /** A datagram of 48 bytes or more overwrites the whole request: what the
      client decodes depends on the datagram alone, not on the request time
      or the random byte. */
  lemma FullDatagramReplacesRequest(requestTime: Long, noise: int, datagram: seq<Byte>)
    requires 0 <= noise < 255
    requires PacketSize <= |datagram|
    ensures ResponseBuffer(requestTime, noise, datagram) == datagram[..PacketSize]
  {
  }

  /** A datagram of 40 bytes or fewer leaves the request's transmit field
      in place, so the transmit time decoded is the request time itself, to
      the millisecond the fraction loses. No check on the reply catches this. */
  lemma ShortDatagramEchoesRequest(requestTime: Long, noise: int, datagram: seq<Byte>)
    requires 0 <= noise < 255
    requires |datagram| <= TransmitTimeOffset
    requires EraZero(requestTime)
    ensures var buffer := ResponseBuffer(requestTime, noise, datagram);
            requestTime - 1 <= ReadTimeStamp(buffer, TransmitTimeOffset) <= requestTime
  {
    KeptTimeStamp(RequestPacket(requestTime, noise), datagram);
  }

  /** A server that copies the request's transmit field into its originate
      field, as section 6 of RFC 4330 asks, gives back the request time, to
      the millisecond the fraction loses, as the originate time. */
  lemma ServerEchoesOriginate(requestTime: Long, noise: int, datagram: seq<Byte>)
    requires 0 <= noise < 255
    requires PacketSize <= |datagram|
    requires datagram[OriginateTimeOffset..OriginateTimeOffset + TimestampSize]
             == RequestPacket(requestTime, noise)[TransmitTimeOffset..PacketSize]
    requires EraZero(requestTime)
    ensures var buffer := ResponseBuffer(requestTime, noise, datagram);
            requestTime - 1 <= ReadTimeStamp(buffer, OriginateTimeOffset) <= requestTime
  {
    EchoedTimeStamp(RequestPacket(requestTime, noise), datagram);
  }

  /** The originate time decoded from a full datagram is the time the
      request's transmit field holds, when the datagram carries those bytes
      as its originate field. */
  lemma EchoedTimeStamp(packet: seq<Byte>, datagram: seq<Byte>)
    requires |packet| == PacketSize && PacketSize <= |datagram|
    requires datagram[OriginateTimeOffset..OriginateTimeOffset + TimestampSize]
             == packet[TransmitTimeOffset..PacketSize]
    ensures ReadTimeStamp(Receive(packet, datagram), OriginateTimeOffset) == ReadTimeStamp(packet, TransmitTimeOffset)
  {
    var buffer := Receive(packet, datagram);
    assert buffer == datagram[..PacketSize];
    assert buffer[OriginateTimeOffset..OriginateTimeOffset + TimestampSize]
        == datagram[OriginateTimeOffset..OriginateTimeOffset + TimestampSize];
    ReadTimeStampLocal(buffer, OriginateTimeOffset, packet, TransmitTimeOffset);
  }

  /** The example of a clean exchange: sent at 1000, received by the server
      at 1050, sent back at 1060, arriving at 1110 by the client's clock. The
      clocks agree, so the offset is zero and the corrected time is 1110;
      the round trip is 100. */
  lemma CleanExchangeExample()
    ensures ClockCorrection(1000, 0, 110, 1000, 1050, 1060) == TimeResult(1110, 110, 100)
  {
  }

  /** An exchange in which every clock reads zero corrects to zero, with a
      zero round trip. */
  lemma StillExchange()
    ensures ClockCorrection(0, 0, 0, 0, 0, 0) == TimeResult(0, 0, 0)
  {
  }

  /** The half-sum rounds toward zero, as `Long` division does: a sum of -3
      gives an offset of -1, where a floor division would give -2. */
  lemma OffsetRoundsTowardZero()
    ensures ClockCorrection(0, 0, 3, 0, 0, 0) == TimeResult(2, 3, 3)
  {
  }
}

=== FILE: timestamp.dfy ===
/** Reading and writing the 64-bit NTP timestamps of the packet: 32-bit
    seconds since 1900 followed by a 32-bit binary fraction of a second,
    both big-endian (section 3 of RFC 4330), converted to and from
    milliseconds since 1970. */
module Timestamp {
  import opened JvmInt
  import opened BigEndian
  import opened NtpPacket

  /** The conversion `read32` applies to each byte: when bit 7 of the
      widened byte is set, its low seven bits plus 0x80, otherwise the byte
      itself. Whatever the sign, it is the byte's unsigned value. */
  function ToUnsigned(b: Byte): (u: int)
    ensures 0 <= u < 256
    ensures u == (b as int) % 256
  {
    var bits := IntPattern(b);
    SignBitOfByte(b);
    if BitAnd(bits, 0x80) == 0x80 then BitAnd(bits, 0x7F) + 0x80 else b
  }

  /** Bit 7 of the widened byte is set exactly for a negative byte, and
      then its seven low bits are the byte plus 128. */
  lemma SignBitOfByte(b: Byte)
    ensures (BitAnd(IntPattern(b), 0x80) == 0x80) <==> b < 0
    ensures b < 0 ==> BitAnd(IntPattern(b), 0x7F) + 0x80 == (b as int) % 256
    ensures 0 <= b ==> b == (b as int) % 256
  {
    var bits := IntPattern(b);
    assert Pow2(7) == 0x80;
    AndSingleBit(bits, 7);
    AndLowMask(bits, 7);
    if b < 0 {
      DivModUnique(b, 0x1_0000_0000, -1, b + 0x1_0000_0000);
      DivModUnique(bits, 0x80, 0x1FF_FFFF, b + 128);
      DivModUnique(0x1FF_FFFF, 2, 0xFF_FFFF, 1);
      DivModUnique(b, 256, -1, b + 256);
    } else {
      DivModUnique(b, 0x1_0000_0000, 0, b);
      DivModUnique(b, 0x80, 0, b);
      DivModUnique(b, 256, 0, b);
    }
  }

  /** `read32`: four bytes at `offset` as an unsigned 32-bit big-endian
      number, combined with `shl` on values that cannot overflow a `Long`. */
  function Read32(buffer: seq<Byte>, offset: int): (r: Long)
    requires 0 <= offset && offset + 4 <= |buffer|
    ensures 0 <= r < SecondsModulus
    ensures r == Value(buffer[offset..offset + 4])
  {
    var i0 := ToUnsigned(buffer[offset]);
    var i1 := ToUnsigned(buffer[offset + 1]);
    var i2 := ToUnsigned(buffer[offset + 2]);
    var i3 := ToUnsigned(buffer[offset + 3]);
    var s := buffer[offset..offset + 4];
    assert Value(s[..1]) == i0 by { assert s[..1][..0] == []; }
    assert Value(s[..2]) == i0 * 256 + i1 by { assert s[..2][..1] == s[..1]; }
    assert Value(s[..3]) == (i0 * 256 + i1) * 256 + i2 by { assert s[..3][..2] == s[..2]; }
    assert s[..4] == s;
    i0 * 0x100_0000 + i1 * 0x1_0000 + i2 * 0x100 + i3
  }

  /** Four bytes of all ones read as the largest unsigned 32-bit value,
      not as -1. */
  lemma Read32AllOnes()
    ensures Read32([-1, -1, -1, -1], 0) == 0xFFFF_FFFF
  {
    var s: seq<Byte> := [-1, -1, -1, -1];
    assert s[0..4] == s;
    assert s[..3] == [-1, -1, -1] && s[..2] == [-1, -1] && s[..1] == [-1];
  }

  /** `readTimeStamp`: the timestamp at `offset` in milliseconds since 1970.
      The seconds contribute whole seconds relative to 1970 and the fraction
      contributes the milliseconds it covers in full, so 0 to 999. */
  function ReadTimeStamp(buffer: seq<Byte>, offset: int): (r: Long)
    requires 0 <= offset && offset + TimestampSize <= |buffer|
    ensures var seconds := Value(buffer[offset..offset + 4]);
            var fraction := Value(buffer[offset + 4..offset + 8]);
            var millis := r - (seconds - Offset1900To1970) * 1000;
            && 0 <= millis < 1000
            && millis * SecondsModulus <= fraction * 1000 < (millis + 1) * SecondsModulus
  {
    var seconds := Read32(buffer, offset);
    var fraction := Read32(buffer, offset + 4);
    (seconds - Offset1900To1970) * 1000 + Div(fraction * 1000, 0x1_0000_0000)
  }

  /** `readTimeStamp` looks at its eight bytes and nothing else: the same
      eight bytes read the same time wherever they sit. */
  lemma ReadTimeStampLocal(buffer: seq<Byte>, offset: int, other: seq<Byte>, otherOffset: int)
    requires 0 <= offset && offset + TimestampSize <= |buffer|
    requires 0 <= otherOffset && otherOffset + TimestampSize <= |other|
    requires buffer[offset..offset + TimestampSize] == other[otherOffset..otherOffset + TimestampSize]
    ensures ReadTimeStamp(buffer, offset) == ReadTimeStamp(other, otherOffset)
  {
    var stamp := buffer[offset..offset + TimestampSize];
    assert buffer[offset..offset + 4] == stamp[..4] == other[otherOffset..otherOffset + 4];
    assert buffer[offset + 4..offset + 8] == stamp[4..] == other[otherOffset + 4..otherOffset + 8];
  }

  /** The seconds `writeTimeStamp` stores for `time`: the quotient by 1000,
      truncated toward zero, plus the 1900-to-1970 offset. */
  function SecondsField(time: Long): (seconds: int)
    ensures var whole := seconds - Offset1900To1970;
            && (0 <= time ==> 0 <= time - whole * 1000 < 1000)
            && (time < 0 ==> -1000 < time - whole * 1000 <= 0)
  {
    Div(time, 1000) + Offset1900To1970
  }

  /** The fraction `writeTimeStamp` stores for `time`: the millisecond
      remainder, which takes the sign of `time`, scaled to 2^32 and
      truncated toward zero. */
  function FractionField(time: Long): (fraction: int)
    ensures var milliseconds := time - (SecondsField(time) - Offset1900To1970) * 1000;
            && (0 <= time ==> 0 <= fraction < SecondsModulus
                              && 0 <= milliseconds * SecondsModulus - fraction * 1000 < 1000)
            && (time < 0 ==> -SecondsModulus < fraction <= 0
                             && -1000 < milliseconds * SecondsModulus - fraction * 1000 <= 0)
  {
    var milliseconds := time - Div(time, 1000) * 1000;
    Div(milliseconds * 0x1_0000_0000, 1000)
  }

  /** The eight bytes `writeTimeStamp` stores for `time`: each field written
      with right shifts and `toByte()`, and as last byte `noise`, the value
      `(Math.random() * 255.0).toInt()` narrowed to a byte. The shifts
      produce the big-endian encoding of the seconds and of all but the
      lowest byte of the fraction. */
  function TimeStampBytes(time: Long, noise: int): (stamp: seq<Byte>)
    requires 0 <= noise < 255
    ensures |stamp| == TimestampSize
    ensures stamp[..4] == Encode(SecondsField(time), 4)
    ensures stamp[4..7] == Encode(FractionField(time) / 256, 3)
    ensures stamp[7] == ToByte(noise)
  {
    var seconds := SecondsField(time);
    var fraction := FractionField(time);
    EncodeFour(seconds);
    EncodeHighThree(fraction);
    [ToByte(seconds / 0x100_0000), ToByte(seconds / 0x1_0000), ToByte(seconds / 0x100), ToByte(seconds),
     ToByte(fraction / 0x100_0000), ToByte(fraction / 0x1_0000), ToByte(fraction / 0x100), ToByte(noise)]
  }

  /** For a time at or after 1970 the truncated quotient of
      `writeTimeStamp` is the floor quotient: the seconds field counts the
      whole seconds since 1900. */
  lemma SecondsOfNonNegative(time: Long)
    requires 0 <= time
    ensures SecondsField(time) == time / 1000 + Offset1900To1970
  {
  }

  /** For a time at or after 1970 the fraction field is the millisecond
      remainder scaled to 2^32, rounded down, and stays below 2^32. */
  lemma FractionOfNonNegative(time: Long)
    requires 0 <= time
    ensures FractionField(time) == (time % 1000) * SecondsModulus / 1000
    ensures 0 <= FractionField(time) < SecondsModulus
  {
    var millis := time % 1000;
    assert Div(time, 1000) == time / 1000;
    assert time - time / 1000 * 1000 == millis;
    assert 0 <= millis * SecondsModulus / 1000 < SecondsModulus;
  }

  /** For a time at or after 1970 the seconds bytes hold the whole seconds
      since 1900 modulo 2^32. */
  lemma SecondsBytesValue(time: Long, noise: int)
    requires 0 <= time && 0 <= noise < 255
    ensures Value(TimeStampBytes(time, noise)[..4]) == (time / 1000 + Offset1900To1970) % SecondsModulus
  {
    SecondsOfNonNegative(time);
    assert Pow256(4) == SecondsModulus;
    ValueOfEncode(SecondsField(time), 4);
  }

  /** For a time at or after 1970 the three fraction bytes hold the top of
      the millisecond remainder scaled to 2^32. */
  lemma FractionBytesValue(time: Long, noise: int)
    requires 0 <= time && 0 <= noise < 255
    ensures Value(TimeStampBytes(time, noise)[4..7]) == (time % 1000) * SecondsModulus / 1000 / 256
  {
    var fraction := FractionField(time);
    var top := fraction / 256;
    assert 0 <= top < 0x100_0000 && top == (time % 1000) * SecondsModulus / 1000 / 256 by {
      FractionOfNonNegative(time);
    }
    assert Value(Encode(top, 3)) == top by {
      assert Pow256(3) == 0x100_0000;
      ValueOfEncode(top, 3);
      DivModUnique(top, Pow256(3), 0, top);
    }
  }

  /** `writeTimeStamp`: `buffer` with the timestamp of `time` in the eight
      bytes at `offset`. Nothing outside those eight bytes changes. For a
      time at or after 1970 the seconds field holds the whole seconds since
      1900 modulo 2^32 and the next three bytes hold the top of the
      fraction; the last byte is `noise`. */
  function WriteTimeStamp(buffer: seq<Byte>, offset: int, time: Long, noise: int): (written: seq<Byte>)
    requires 0 <= offset && offset + TimestampSize <= |buffer|
    requires 0 <= noise < 255
    ensures |written| == |buffer|
    ensures forall i :: 0 <= i < |buffer| && !(offset <= i < offset + TimestampSize) ==> written[i] == buffer[i]
    ensures written[offset..offset + TimestampSize] == TimeStampBytes(time, noise)
    ensures 0 <= time ==> Value(written[offset..offset + 4]) == (time / 1000 + Offset1900To1970) % SecondsModulus
    ensures 0 <= time ==> Value(written[offset + 4..offset + 7]) == (time % 1000) * SecondsModulus / 1000 / 256
  {
    var stamp := TimeStampBytes(time, noise);
    var written := buffer[..offset] + stamp + buffer[offset + TimestampSize..];
    assert written[offset..offset + TimestampSize] == stamp;
    assert written[offset..offset + 4] == stamp[..4];
    assert written[offset + 4..offset + 7] == stamp[4..7];
    if 0 <= time then
      SecondsBytesValue(time, noise);
      FractionBytesValue(time, noise);
      written
    else
      written
  }

  /** The arithmetic at the heart of the round trip: a fraction that keeps
      the top three bytes of the scaled millisecond remainder `m`, with any
      low byte, reads back as `m` or `m - 1` milliseconds, never more. */
  lemma MillisRecovered(m: int, fraction: int, millis: int)
    requires 0 <= m < 1000
    requires var scaled := m * SecondsModulus / 1000;
             scaled / 256 * 256 <= fraction < scaled / 256 * 256 + 256
    requires 0 <= millis < 1000
    requires millis * SecondsModulus <= fraction * 1000 < (millis + 1) * SecondsModulus
    ensures m - 1 <= millis <= m
  {
    var scaled := m * SecondsModulus / 1000;
    assert scaled * 1000 <= m * SecondsModulus < scaled * 1000 + 1000;
    assert scaled - 255 <= fraction <= scaled + 255;
    assert fraction * 1000 <= m * SecondsModulus + 255_000;
    assert fraction * 1000 > m * SecondsModulus - 256_000;
  }

  /** What the reader sees of a timestamp written for a time at or after
      1970: the seconds since 1900 modulo 2^32, and a fraction that agrees
      with the scaled millisecond remainder in all but its low byte. */
  lemma WrittenFields(buffer: seq<Byte>, offset: int, time: Long, noise: int)
    requires 0 <= offset && offset + TimestampSize <= |buffer|
    requires 0 <= noise < 255
    requires 0 <= time
    ensures var written := WriteTimeStamp(buffer, offset, time, noise);
            var scaled := (time % 1000) * SecondsModulus / 1000;
            && Value(written[offset..offset + 4]) == (time / 1000 + Offset1900To1970) % SecondsModulus
            && scaled / 256 * 256 <= Value(written[offset + 4..offset + 8]) < scaled / 256 * 256 + 256
  {
    var written := WriteTimeStamp(buffer, offset, time, noise);
    var low := written[offset + 7];
    assert written[offset + 4..offset + 8] == written[offset + 4..offset + 7] + [low];
    ValueSnoc(written[offset + 4..offset + 7], low);
  }

  /** Whole seconds plus recovered milliseconds give back the time, less
      the dropped eras and at most one millisecond. */
  lemma EraArithmetic(time: int, millis: int, r: int)
    requires 0 <= time
    requires time % 1000 - 1 <= millis <= time % 1000
    requires r == ((time / 1000 + Offset1900To1970) % SecondsModulus - Offset1900To1970) * 1000 + millis
    ensures var eras := (time / 1000 + Offset1900To1970) / SecondsModulus;
            time - 1 <= r + eras * SecondsModulus * 1000 <= time
  {
  }

  /** Writing a time at or after 1970 and reading it back gives the time
      again, or one millisecond less, once the whole 2^32-second NTP eras
      that the 32-bit seconds field drops are added back. The random low
      byte of the fraction never matters. */
  lemma RoundTrip(buffer: seq<Byte>, offset: int, time: Long, noise: int)
    requires 0 <= offset && offset + TimestampSize <= |buffer|
    requires 0 <= noise < 255
    requires 0 <= time
    ensures var r := ReadTimeStamp(WriteTimeStamp(buffer, offset, time, noise), offset);
            var eras := (time / 1000 + Offset1900To1970) / SecondsModulus;
            time - 1 <= r + eras * SecondsModulus * 1000 <= time
  {
    var written := WriteTimeStamp(buffer, offset, time, noise);
    var r := ReadTimeStamp(written, offset);
    WrittenFields(buffer, offset, time, noise);
    var seconds := Value(written[offset..offset + 4]);
    var fraction := Value(written[offset + 4..offset + 8]);
    var millis := r - (seconds - Offset1900To1970) * 1000;
    MillisRecovered(time % 1000, fraction, millis);
    EraArithmetic(time, millis, r);
  }

  /** A time from 1970 up to the end of NTP era 0 (February 2036): its
      seconds since 1900 fit the 32-bit seconds field. */
  predicate EraZero(time: int) {
    0 <= time && time / 1000 + Offset1900To1970 < SecondsModulus
  }

  /** Up to the end of NTP era 0 (February 2036) no era is dropped: the
      time read back is the time written or one millisecond less. */
  lemma RoundTripEraZero(buffer: seq<Byte>, offset: int, time: Long, noise: int)
    requires 0 <= offset && offset + TimestampSize <= |buffer|
    requires 0 <= noise < 255
    requires EraZero(time)
    ensures time - 1 <= ReadTimeStamp(WriteTimeStamp(buffer, offset, time, noise), offset) <= time
  {
    var ntpSeconds := time / 1000 + Offset1900To1970;
    DivModUnique(ntpSeconds, SecondsModulus, 0, ntpSeconds);
    assert ntpSeconds / SecondsModulus * SecondsModulus * 1000 == 0;
    RoundTrip(buffer, offset, time, noise);
  }

  /** One millisecond before the epoch is written with the epoch's own
      seconds, since the quotient truncates toward zero. */
  lemma NegativeTimeSeconds(noise: int)
    requires 0 <= noise < 255
    ensures Value(TimeStampBytes(-1, noise)[..4]) == Offset1900To1970
  {
    assert Div(-1, 1000) == 0;
    assert Pow256(4) == SecondsModulus;
    ValueOfEncode(Offset1900To1970, 4);
    DivModUnique(Offset1900To1970, SecondsModulus, 0, Offset1900To1970);
  }

  /** One millisecond before the epoch is written with the fraction
      -2^32/1000 truncated toward zero, whose top three bytes in two's
      complement are 16760438. */
  lemma NegativeTimeFraction(noise: int)
    requires 0 <= noise < 255
    ensures Value(TimeStampBytes(-1, noise)[4..7]) == 16760438
  {
    assert Div(-1, 1000) == 0;
    assert Div(-SecondsModulus, 1000) == -4294967;
    assert Pow256(3) == 0x100_0000;
    DivModUnique(-4294967, 256, -16778, 201);
    ValueOfEncode(-16778, 3);
    DivModUnique(-16778, 0x100_0000, -1, 16760438);
  }

  /** Before 1970 the round trip fails: one millisecond before the epoch is
      written with a negative fraction, whose two's-complement bytes read
      back as almost a whole second after the epoch. */
  lemma NegativeTimeReadsForward(buffer: seq<Byte>, offset: int, noise: int)
    requires 0 <= offset && offset + TimestampSize <= |buffer|
    requires 0 <= noise < 255
    ensures 998 <= ReadTimeStamp(WriteTimeStamp(buffer, offset, -1, noise), offset) <= 999
  {
    var written := WriteTimeStamp(buffer, offset, -1, noise);
    var stamp := TimeStampBytes(-1, noise);
    assert written[offset..offset + TimestampSize] == stamp;
    NegativeTimeSeconds(noise);
    NegativeTimeFraction(noise);
    assert written[offset..offset + 4] == stamp[..4];
    assert written[offset + 4..offset + 8] == stamp[4..7] + [stamp[7]];
    ValueSnoc(stamp[4..7], stamp[7]);
  }

  /** Eight bytes holding the timestamp `writeTimeStamp` produces for an
      era-0 time read back as that time or one millisecond less, wherever
      they sit in a buffer. */
  lemma FieldReadsBack(buffer: seq<Byte>, offset: int, time: Long, noise: int)
    requires 0 <= offset && offset + TimestampSize <= |buffer|
    requires 0 <= noise < 255
    requires buffer[offset..offset + TimestampSize] == TimeStampBytes(time, noise)
    requires EraZero(time)
    ensures time - 1 <= ReadTimeStamp(buffer, offset) <= time
  {
    var written := WriteTimeStamp(buffer, offset, time, noise);
    ReadTimeStampLocal(buffer, offset, written, offset);
    RoundTripEraZero(buffer, offset, time, noise);
  }

  /** What the reader sees of eight bytes whose first seven are those of a
      timestamp for a time at or after 1970: the seconds since 1900 modulo
      2^32, and a fraction that agrees with the scaled millisecond
      remainder in all but its low byte. */
  lemma PrefixFields(buffer: seq<Byte>, offset: int, time: Long)
    requires 0 <= offset && offset + TimestampSize <= |buffer|
    requires 0 <= time
    requires buffer[offset..offset + 7] == TimeStampBytes(time, 0)[..7]
    ensures var scaled := (time % 1000) * SecondsModulus / 1000;
            && Value(buffer[offset..offset + 4]) == (time / 1000 + Offset1900To1970) % SecondsModulus
            && scaled / 256 * 256 <= Value(buffer[offset + 4..offset + 8]) < scaled / 256 * 256 + 256
  {
    var stamp := TimeStampBytes(time, 0);
    var low := buffer[offset + 7];
    assert buffer[offset..offset + 4] == stamp[..4];
    assert buffer[offset + 4..offset + 8] == stamp[4..7] + [low];
    SecondsBytesValue(time, 0);
    FractionBytesValue(time, 0);
    ValueSnoc(stamp[4..7], low);
  }

  /** The first seven bytes of an era-0 timestamp fix the time to the
      millisecond: whatever the last byte holds, 0xFF included, they read
      back as the time or one millisecond less. */
  lemma PrefixReadsBack(buffer: seq<Byte>, offset: int, time: Long)
    requires 0 <= offset && offset + TimestampSize <= |buffer|
    requires buffer[offset..offset + 7] == TimeStampBytes(time, 0)[..7]
    requires EraZero(time)
    ensures time - 1 <= ReadTimeStamp(buffer, offset) <= time
  {
    var r := ReadTimeStamp(buffer, offset);
    PrefixFields(buffer, offset, time);
    var seconds := Value(buffer[offset..offset + 4]);
    var fraction := Value(buffer[offset + 4..offset + 8]);
    var millis := r - (seconds - Offset1900To1970) * 1000;
    MillisRecovered(time % 1000, fraction, millis);
    var ntpSeconds := time / 1000 + Offset1900To1970;
    DivModUnique(ntpSeconds, SecondsModulus, 0, ntpSeconds);
    assert ntpSeconds / SecondsModulus * SecondsModulus * 1000 == 0;
    EraArithmetic(time, millis, r);
  }

  /** The first seven bytes of the epoch's timestamp read back as the epoch
      itself, whatever the last byte holds: the fraction is then below 256
      and covers no whole millisecond. */
  lemma EpochPrefixReadsZero(buffer: seq<Byte>, offset: int)
    requires 0 <= offset && offset + TimestampSize <= |buffer|
    requires buffer[offset..offset + 7] == TimeStampBytes(0, 0)[..7]
    ensures ReadTimeStamp(buffer, offset) == 0
  {
    PrefixFields(buffer, offset, 0);
    assert (0 % 1000) * SecondsModulus / 1000 / 256 * 256 == 0;
    var fraction := Value(buffer[offset + 4..offset + 8]);
    assert fraction * 1000 < SecondsModulus;
    OffsetValue();
    DivModUnique(Offset1900To1970, SecondsModulus, 0, Offset1900To1970);
    var millis := ReadTimeStamp(buffer, offset) - (Value(buffer[offset..offset + 4]) - Offset1900To1970) * 1000;
    assert millis == 0 by {
      if millis > 0 {
        MulAtLeast(millis, SecondsModulus);
      }
    }
  }
}
